=== FILE: README.md ===
# js-touchable gesture core, modelled in Dafny

This project models the gesture core of js-touchable. That core turns pointer,
touch, mouse and wheel input on a web component into pan, pinch-zoom and
wheel-zoom callbacks. It has two parts:

- **`Tracking`** (`src/tracking.ts`) interprets the contacts given to `start`,
  `move` and `finish`. It keeps a 100 ms history of tracked points, the
  gesture's `initial` and `latest` points, the pinch baseline `distance` and
  the cumulative `zoom`. It calls the surface's `onMove`, `onFinish`,
  `onZoomTo` and `onZoomBy` callbacks.
- **The `touchable` mixin** (`src/mixin.ts`) registers one event pathway on the
  element: pointer events, or touch events plus mouse dragging. It always
  registers the wheel as well. It keeps the table of active pointer contacts
  and forwards the contact points to `Tracking`.

Files:

- `wrappers.dfy`: `Option`.
- `geometry.dfy` (module `Geometry`): `Point` and the bounding-rectangle
  centre `Center`.
- `tracking.dfy` (module `GestureTracking`): the operations as functions on
  a `Session` value (`Started`, `Moved`, `Finished`, `ZoomedBy`). Each returns
  the new session, the callbacks fired and whether the source would throw.
  The lemmas prove the gesture properties about these functions. The class
  `Tracking` keeps the same fields and changes them in place, as the source
  does (`Trim` is the `shift` loop, `Add` the `push`). Each of its methods
  is proved to agree with the matching function.
- `mixin.dfy` (module `Mixin`): listener registrations as a set of
  `(target, event, handler)` triples, and the contact table as
  `map<nat, Point>`. `Object.values` becomes `Contacts`, which lists points
  by ascending id. The class `Touchable` has one method per handler.

Inputs the code reads from its environment become parameters:

- `performance.now()` becomes a `now` argument. The ghost `clock` of
  `Tracking` requires it never to decrease.
- `pointFromInteraction(e)` becomes the `Point` argument of each handler.
- `e.pointerId`, `e.deltaY` and `e.targetTouches` also become arguments.
- `Env` holds the callbacks the surface defines (`hooks`), the distance
  function `dist` and the power function `pow` (x ↦ 1.06^x). The model
  assumes only that `pow` is positive.
- A guarded call such as `touchable.onMove && touchable.onMove(...)` is
  `Notify(hooks, c)`: the one-element list `[c]` when the surface defines
  that callback, the empty list otherwise.

Some details of the code's behaviour that the model keeps:

- `start` with zero or three or more points still clears the history and
  resets `distance` and `zoom`. It only skips the update of `initial` and the
  callback.
- A two-point `move` never reports `onMove`. Only `start` reports the
  centre through `onMove`.
- Disconnecting does not clear the contact table.
- The mouse-drag listeners are registered on `document` as unbound methods,
  so they run with `this` set to `document` and throw at once (see
  "## Findings"). They are never removed: after every drag, not only an
  unfinished one, they stay registered on the document.
- Reading `initial.point` throws while `initial` is undefined, that is,
  until a `start` with one or two points has run. The model records the
  throw (`Outcome.threw`, the result of `Tracking.Move`).

## Model

| member | source | states |
|---|---|---|
| Geometry.Center | src/tracking.ts:28-30 | the tracked point of two contacts lies inside their bounding rectangle, at equal distance from opposite sides |
| Geometry.CenterIsInputIffCoincident | src/tracking.ts:48-51 | the centre equals one of the two raw points exactly when the points coincide |
| GestureTracking.Trimmed | src/tracking.ts:102-106 | trimming never lengthens the history, and the first entry left is inside the 100 ms window |
| GestureTracking.TrimmedIsSuffix | src/tracking.ts:102-106 | trimming removes only a prefix; what remains is a suffix in the same order |
| GestureTracking.TrimmedDropsOnlyExpired | src/tracking.ts:103-105 | every evicted entry was more than 100 ms older than `now` |
| GestureTracking.TrimmedIsWindow | src/tracking.ts:102-106 | on a time-ordered history an entry survives trimming iff it was in the history and is at most 100 ms old |
| GestureTracking.TrimmedCoherent | src/tracking.ts:70-71 | trimming at a later time keeps the history ordered, bounded by the clock and ending in `latest` |
| GestureTracking.Added | src/tracking.ts:95-100 | `add` makes the new entry `(now, point)` both `latest` and the last history entry, grows the history by at most one, and leaves `initial`, `distance` and `zoom` alone |
| GestureTracking.AddedCoherent | src/tracking.ts:95-100 | `add` keeps the history ordered; the new entry is `latest`, is last, and has time `now` |
| GestureTracking.Started | src/tracking.ts:18-39 | `start` never throws, always resets `distance` to 0 and `zoom` to 1, leaves at most one history entry, and reports at most an `onMove` whose start and position coincide |
| GestureTracking.Moved | src/tracking.ts:41-63 | `move` never changes `initial`, throws only while `initial` is undefined (then reporting nothing), and whatever it reports (`onMove` or `onZoomTo`) starts at the gesture's start point |
| GestureTracking.Finished | src/tracking.ts:65-89 | `finish` never throws and reports at most one callback: `onFinish` only when no contact remains, `onMove` only when one remains |
| GestureTracking.ZoomedBy | src/tracking.ts:91-93 | `zoomBy` changes no state, never throws, and reports `onZoomBy(point, direction)` exactly once when the surface defines it and nothing otherwise |
| GestureTracking.StepsKeepInvariant | src/tracking.ts:18-89 | `start`, `move` and `finish` at a non-decreasing time preserve the history invariant |
| GestureTracking.ZoomStaysPositive | src/tracking.ts:53-60 | with a positive power function, `zoom` stays positive through every operation |
| GestureTracking.StartResets | src/tracking.ts:18-39 | `start` always empties the history and sets distance 0 and zoom 1; with one or two points the history is exactly the tracked point, `initial == latest`, and `onMove(p, p)` fires; otherwise nothing fires and `initial`/`latest` are unchanged |
| GestureTracking.TwoPointsTrackCenter | src/tracking.ts:28-51 | with two contacts, `start` and `move` track the centre (the whole history after `start`, the newest entry after `move`), never a raw point unless the two coincide |
| GestureTracking.PinchZoomGuard | src/tracking.ts:48-61 | `onZoomTo` fires only when the previous distance is non-zero; zoom is multiplied by pow((d - distance)/10) exactly then; the new separation is recorded unless it throws; `initial` is untouched |
| GestureTracking.FirstPinchMoveNeverZooms | src/tracking.ts:18-60 | the first two-point `move` after any `start` fires nothing, leaves zoom at 1 and sets the baseline |
| GestureTracking.OnlyPinchMovesZoom | src/tracking.ts:41-93 | a one-point `move`, a `finish` that is not a restart, and `zoomBy` leave zoom, distance and `initial` unchanged |
| GestureTracking.FinishLastContact | src/tracking.ts:69-81 | when the last contact lifts, the history is trimmed; `onFinish(oldest, newest, newest.time - oldest.time)` fires iff at least two entries remain; its duration is between 0 and 100 |
| GestureTracking.FinishOneRemainingRestarts | src/tracking.ts:83-86 | `finish` with one remaining contact is exactly `start` of that contact and reports `onMove`, never `onFinish` |
| GestureTracking.FinishManyRemainingChangesNothing | src/tracking.ts:65-89 | `finish` with two or more remaining contacts changes no state and fires nothing |
| GestureTracking.StartIgnoresContactOrder | src/tracking.ts:28-30 | a two-point `start` gives the same outcome whichever contact is listed first |
| GestureTracking.OneFingerMoveReportsFromStart | src/tracking.ts:43-45 | once a gesture is under way, every one-point `move` reports `onMove(start point, new point)` and does not throw |
| GestureTracking.DragReportsFromStart | src/tracking.ts:43-45 | along any run of one-point moves in a gesture under way, the i-th move reports `onMove(start point, i-th point)`; none throws and `initial` stays |
| GestureTracking.OneFingerGesture | src/tracking.ts:18-45 | after a one-point `start` at `p0`, every following one-point move reports `onMove(p0, its point)` |
| GestureTracking.MoveOtherCountChangesNothing | src/tracking.ts:41-63 | `move` with neither one nor two points matches no `switch` arm: the session is unchanged, nothing fires and nothing throws |
| GestureTracking.PinchWithoutStartThrows | src/tracking.ts:18-60 | after a `start` with neither one nor two points, the first two-point move sets the baseline and the second throws when `onZoomTo` is defined, reporting nothing |
| GestureTracking.PanSequence | src/tracking.ts:18-81 | start, move and lift within the window report `onMove(p0,p0)`, `onMove(p0,p1)` and `onFinish(p0,p1,t1-t0)` |
| GestureTracking.PinchSequence | src/tracking.ts:18-62 | in a two-finger start then two moves, the first move fires nothing and the second reports `onZoomTo(start centre, new centre, pow(Δd/10))` |
| GestureTracking.Tracking.constructor | src/tracking.ts:9-16 | a new tracker has an empty history, undefined `initial`/`latest`, `distance` 0, `zoom` 1 and no callbacks delivered |
| GestureTracking.Tracking.Trim | src/tracking.ts:102-106 | the front-eviction loop leaves exactly `Trimmed(old history, now)` |
| GestureTracking.Tracking.Add | src/tracking.ts:95-100 | trims, then appends `(now, point)` and makes it `latest`, nothing else changes |
| GestureTracking.Tracking.Start | src/tracking.ts:18-39 | the new fields and delivered callbacks are those of `Started`; the invariant is kept |
| GestureTracking.Tracking.MoveOne | src/tracking.ts:43-46 | the one-contact case of `move`: the new fields, delivered callbacks and the throw are those of `Moved` with one point |
| GestureTracking.Tracking.MoveTwo | src/tracking.ts:48-61 | the two-contact case of `move`: the new fields, delivered callbacks and the throw are those of `Moved` with two points; `zoom` stays positive |
| GestureTracking.Tracking.Move | src/tracking.ts:41-63 | the new fields, delivered callbacks and the throw are those of `Moved`; the invariant (including zoom > 0) is kept |
| GestureTracking.Tracking.FinishLast | src/tracking.ts:69-81 | the no-contact-remaining case of `finish`: the new fields and delivered callbacks are those of `Finished` with no points; the invariant is kept |
| GestureTracking.Tracking.Finish | src/tracking.ts:65-89 | the new fields and delivered callbacks are those of `Finished`; the invariant is kept |
| GestureTracking.Tracking.ZoomBy | src/tracking.ts:91-93 | forwards point and direction to `onZoomBy` unchanged and touches no other state |
| Mixin.Pathway | src/mixin.ts:53-70 | the registered element listeners always include the wheel, are all on the element, and include pointer listeners only with pointer events and touch/mousedown listeners only without |
| Mixin.DragListeners | src/mixin.ts:151-152 | the drag listeners are registered on the document, and a document event reaches one of them exactly when it is mousemove or mouseup |
| Mixin.PathwayRouting | src/mixin.ts:56-69 | an element event reaches a handler iff it is the wheel or belongs to the selected pathway; nothing is registered on the document |
| Mixin.Ascending | src/mixin.ts:99 | the ids, each exactly once, in strictly ascending order |
| Mixin.ListedByIds | src/mixin.ts:99 | points listed by the ascending keys of the table are all points of active contacts, and a smaller id's point comes before a larger id's |
| Mixin.Contacts | src/mixin.ts:99 | one point per active contact, every one the point of an active contact, and the point of a smaller id listed before the point of a larger one |
| Mixin.ContactsCover | src/mixin.ts:99-100 | every active contact's point is among the points passed to `start` |
| Mixin.ContactsOfOne | src/mixin.ts:97-100 | a lone contact is passed on as exactly its own point |
| Mixin.ContactsAfterRelease | src/mixin.ts:119-122 | after a release the points passed on are exactly those of the other active ids, one fewer if the id was active |
| Mixin.Touchable.constructor | src/mixin.ts:34-35 | a new surface has an empty contact table, no registrations and a fresh tracker with an empty history, undefined `initial`/`latest`, `distance` 0 and `zoom` 1 |
| Mixin.Touchable.AddEventListeners | src/mixin.ts:53-70 | adds exactly `Pathway(pointerEvents)` to the registrations |
| Mixin.Touchable.RemoveEventListeners | src/mixin.ts:72-89 | removes exactly `Pathway(pointerEvents)`, the same set the add registered |
| Mixin.Touchable.OnPointerDown | src/mixin.ts:91-101 | maps the id to the new point, overwriting any earlier entry, then starts with all contacts; a first contact starts a gesture at its own point |
| Mixin.Touchable.OnPointerMove | src/mixin.ts:103-111 | an unknown id changes nothing, calls nothing and does not throw; a known id updates only its entry, then moves with all contacts, and the handler throws exactly when that `move` does |
| Mixin.Touchable.OnPointerFinish | src/mixin.ts:113-123 | removes the id (no-op if absent) and finishes with exactly the remaining contacts |
| Mixin.Touchable.OnTouchStart | src/mixin.ts:125-130 | starts with the points of all target touches |
| Mixin.Touchable.OnTouchMove | src/mixin.ts:132-137 | moves with the points of all target touches, and throws exactly when that `move` does |
| Mixin.Touchable.OnTouchFinish | src/mixin.ts:139-144 | finishes with the points of the remaining target touches |
| Mixin.Touchable.OnMouseDown | src/mixin.ts:146-153 | starts a one-point gesture at the mouse point and adds the document mousemove/mouseup listeners |
| Mixin.Touchable.OnMouseMove | src/mixin.ts:155-159 | the handler with `this` bound to the surface, as intended: moves with the single mouse point, and throws exactly when that `move` does |
| Mixin.Touchable.OnMouseUp | src/mixin.ts:161-168 | the handler with `this` bound to the surface, as intended: finishes with one point, which restarts tracking at it (no `onFinish`; zoom 1, distance 0), then removes both document listeners |
| Mixin.Touchable.OnMouseMoveAsWritten | src/mixin.ts:151-158 | run with `this` set to the target it was registered on: on `document` it throws and changes nothing; on the surface it is `OnMouseMove`, throwing exactly when its `move` does |
| Mixin.Touchable.OnMouseUpAsWritten | src/mixin.ts:152-167 | run with `this` set to its target: on `document` it throws, the gesture is not finished and the listeners stay; on the surface it is `OnMouseUp` |
| Mixin.Touchable.OnMouseWheel | src/mixin.ts:170-174 | forwards the point and `deltaY` to `zoomBy` unchanged; tracking state is untouched |
| Mixin.DeliverOnDocument | src/mixin.ts:151-167 | with the drag listeners registered on `document`, a mousemove and a mouseup delivered there both throw and leave the registrations and the reported callbacks as they were |
| Mixin.MouseDragAsWritten | src/mixin.ts:146-168 | mousedown, then mousemove and mouseup delivered by the document: only the start is reported, both document handlers throw, and the drag listeners stay registered |
| Mixin.MoveFromStart | src/mixin.ts:155-158 | a bound mousemove after a drag started at `p0` reports `onMove(p0, p)` (if defined) and leaves the registrations alone |
| Mixin.MouseDrag | src/mixin.ts:146-168 | the same drag with bound handlers reports `onMove(p0,p0)`, `onMove(p0,p1)` and `onMove(p1,p1)` (each if defined) and leaves no drag listener behind |
| Mixin.ConnectThenDisconnect | src/mixin.ts:37-51 | connecting then disconnecting a surface with no element registrations restores its registrations and leaves the contact table alone |

## Left out

- Event dispatch is modelled only in part. The handlers are methods called directly, with their effect on registrations and tracking. `Receivers` says which handlers an event would reach. For the document drag listeners, the `this` the DOM supplies is the `receiver` argument of the `AsWritten` handlers. Event bubbling and listener call order are not modelled.
- Left out of the DOM side: `preventDefault`, `setPointerCapture`/`releasePointerCapture`, and the superclass `connectedCallback`/`disconnectedCallback` hooks.
- The `window.PointerEvent` probe is not modelled. The capability is the constructor flag `pointerEvents`.
- `pointFromInteraction` (`src/interaction.ts`) is not modelled. It reads DOM layout offsets. Each handler takes the resulting point as an argument.
- The event `capture` flag (always `false`) is not modelled.
- The clock is not modelled. `performance.now()` is the `now` argument. The model requires times never to decrease, which the history ordering relies on.
- The geometry library and floating point are not modelled. `dist` and `1.06^x` are functions supplied in `Env`; only positivity of the power is assumed. `Center` and the division by 10 are exact over reals. NaN, infinities and rounding are out of scope.
- Pinch zoom growing with finger separation is not proved: it depends on `1.06^x` increasing, which the model does not assume.
- GestureTracking.Tracking.constructor: starts `distance` at 0 and `zoom` at 1, because the source leaves both undefined until the first `start`. An undefined `distance` is falsy like 0. An undefined `zoom` would turn into NaN if a pinch came before any `start`; the model does not capture this.
- Pointer ids are modelled as natural numbers. For those ids, `Object.values` order is ascending id order. Insertion-order listing of other keys is not modelled.
- A thrown TypeError is only recorded: `Outcome.threw`, the result of `Tracking.Move`, and the result of the move handlers `OnPointerMove`, `OnTouchMove`, `OnMouseMove` and `OnMouseMoveAsWritten`. What the browser then does with it is not modelled. The callback is never delivered, and in a pinch `distance` is not updated. `move` is each handler's last step, so nothing else in the handler is skipped.
- `src/touchable.ts` holds only the callback interface. The callbacks are `Hook`s, and their calls are entries in `Tracking.log`. `onTap` and `onHold` are never called by the core.
- `src/example.ts` and `server.js` are not part of this model. They are a demo component and a development server.

## Findings

| source | as written | input that shows it | evidently intended | confidence | as-written member | corrected member |
|---|---|---|---|---|---|---|
| src/mixin.ts:151-167 | `onMouseDown` registers the unbound methods `this[onMouseMove]` and `this[onMouseUp]` on `document`. The DOM runs them with `this === document`, so `this[tracking]` is undefined and `move`/`finish` throw before the listeners are removed. | `pointerEvents` false: mousedown at p0, mousemove at p1, mouseup at p1. Only `onMove(p0,p0)` is reported, both handlers throw, and both document listeners stay registered. | The handlers are bound to the surface. The drag reports `onMove(p0,p1)` and the restart `onMove(p1,p1)`, and then removes its document listeners. | high, from reading; not executed | Mixin.MouseDragAsWritten | Mixin.MouseDrag |

=== FILE: geometry.dfy ===
/**
 * The part of the geometry library that the gesture code relies on: a point
 * in element-local coordinates and the centre of the rectangle spanned by
 * two points. Coordinates are reals, so the centre is exact.
 */
module Geometry {

  /** A coordinate in the surface's own coordinate space. */
  datatype Point = Point(x: real, y: real)

  function Min(a: real, b: real): real { if a <= b then a else b }

  function Max(a: real, b: real): real { if a <= b then b else a }

  /**
   * The centre of the bounding rectangle of `a` and `b` (what
   * `new Rect(a, b).do(center)` yields): it lies inside the rectangle, at
   * equal distance from its left and right sides and from its top and
   * bottom sides.
   */
  function Center(a: Point, b: Point): (c: Point)
    ensures Min(a.x, b.x) <= c.x <= Max(a.x, b.x)
    ensures Min(a.y, b.y) <= c.y <= Max(a.y, b.y)
    ensures c.x - Min(a.x, b.x) == Max(a.x, b.x) - c.x
    ensures c.y - Min(a.y, b.y) == Max(a.y, b.y) - c.y
  {
    Point((Min(a.x, b.x) + Max(a.x, b.x)) / 2.0, (Min(a.y, b.y) + Max(a.y, b.y)) / 2.0)
  }

  /** The centre does not depend on the order of the two corners. */
  lemma CenterSymmetric(a: Point, b: Point)
    ensures Center(a, b) == Center(b, a)
  {
  }

  /**
   * The centre of two contacts is one of the raw contact points exactly
   * when the two contacts coincide.
   */
  lemma CenterIsInputIffCoincident(a: Point, b: Point)
    ensures Center(a, b) == a || Center(a, b) == b <==> a == b
  {
  }
}

=== FILE: mixin.dfy ===
/**
 * The `touchable` mixin of src/mixin.ts: it registers one input pathway
 * (pointer events, or touch events plus mouse dragging) and the wheel on
 * the host element, keeps the table of active pointer contacts, and feeds
 * the contacts to its `Tracking` object.
 *
 * Event objects are reduced to what the handlers read: the pointer id, the
 * element-local point of the event (or the points of all target touches),
 * the wheel's vertical delta, and the time the clock would report.
 */
module Mixin {
  import opened Geometry
  import opened Wrappers
  import opened GestureTracking

  // ----- listener registrations -----

  datatype Target = Element | Document

  datatype EventType =
    | PointerDown | PointerMove | PointerUp | PointerCancel
    | TouchStart | TouchMove | TouchEnd | TouchCancel
    | MouseDown | MouseMove | MouseUp
    | Wheel
  {
    predicate IsPointer() { PointerDown? || PointerMove? || PointerUp? || PointerCancel? }
    predicate IsTouch() { TouchStart? || TouchMove? || TouchEnd? || TouchCancel? }
  }

  /** The handler methods of the mixin, as listener identities. */
  datatype Handler =
    | PointerDownHandler | PointerMoveHandler | PointerFinishHandler
    | TouchStartHandler | TouchMoveHandler | TouchFinishHandler
    | MouseDownHandler | MouseMoveHandler | MouseUpHandler
    | MouseWheelHandler

  /**
   * A registration made with `addEventListener(event, handler, false)`.
   * Registering the same triple twice is a no-op and removing an absent one
   * is a no-op, so the registrations of a target form a set.
   */
  datatype Listener = Listener(target: Target, event: EventType, handler: Handler)

  /**
   * The element listeners `_addEventListeners` registers: the four pointer
   * listeners when the platform has pointer events, otherwise the four
   * touch listeners and mousedown; the wheel listener in both cases.
   */
  function Pathway(pointerEvents: bool): (r: set<Listener>)
    ensures Listener(Element, Wheel, MouseWheelHandler) in r
    ensures forall l :: l in r ==> l.target == Element
    ensures forall l :: l in r && l.event.IsPointer() ==> pointerEvents
    ensures forall l :: l in r && (l.event.IsTouch() || l.event == MouseDown) ==> !pointerEvents
  {
    var chosen :=
      if pointerEvents then
        {Listener(Element, PointerDown, PointerDownHandler),
         Listener(Element, PointerMove, PointerMoveHandler),
         Listener(Element, PointerUp, PointerFinishHandler),
         Listener(Element, PointerCancel, PointerFinishHandler)}
      else
        {Listener(Element, TouchStart, TouchStartHandler),
         Listener(Element, TouchMove, TouchMoveHandler),
         Listener(Element, TouchEnd, TouchFinishHandler),
         Listener(Element, TouchCancel, TouchFinishHandler),
         Listener(Element, MouseDown, MouseDownHandler)};
    chosen + {Listener(Element, Wheel, MouseWheelHandler)}
  }

  /** The document listeners that follow a mouse drag. */
  function DragListeners(): (r: set<Listener>)
    ensures forall l :: l in r ==> l.target == Document
    ensures forall e :: Receivers(r, Document, e) != {} <==> e == MouseMove || e == MouseUp
  {
    var r := {Listener(Document, MouseMove, MouseMoveHandler), Listener(Document, MouseUp, MouseUpHandler)};
    assert MouseMoveHandler in Receivers(r, Document, MouseMove);
    assert MouseUpHandler in Receivers(r, Document, MouseUp);
    r
  }

  /** The handlers an event of type `event` on `target` reaches. */
  function Receivers(listeners: set<Listener>, target: Target, event: EventType): set<Handler>
  {
    set l | l in listeners && l.target == target && l.event == event :: l.handler
  }

  /**
   * Exactly one pathway is live on the element: an event of a type is
   * handled iff it is the wheel or belongs to the pathway the platform
   * selects; nothing is registered on the document.
   */
  lemma PathwayRouting(pointerEvents: bool, event: EventType)
    ensures Receivers(Pathway(pointerEvents), Element, event) != {} <==>
      event == Wheel
      || (pointerEvents && event.IsPointer())
      || (!pointerEvents && (event.IsTouch() || event == MouseDown))
    ensures Receivers(Pathway(pointerEvents), Document, event) == {}
  {
    var r := Pathway(pointerEvents);
    if event == Wheel {
      assert MouseWheelHandler in Receivers(r, Element, event);
    } else if pointerEvents && event.IsPointer() {
      var h := match event
        case PointerDown => PointerDownHandler
        case PointerMove => PointerMoveHandler
        case _ => PointerFinishHandler;
      assert Listener(Element, event, h) in r;
      assert h in Receivers(r, Element, event);
    } else if !pointerEvents && (event.IsTouch() || event == MouseDown) {
      var h := match event
        case TouchStart => TouchStartHandler
        case TouchMove => TouchMoveHandler
        case MouseDown => MouseDownHandler
        case _ => TouchFinishHandler;
      assert Listener(Element, event, h) in r;
      assert h in Receivers(r, Element, event);
    }
  }

  // ----- the contact table -----

  /** Every non-empty set of ids has a least element: here it is. */
  lemma {:induction false} LeastOf(s: set<nat>) returns (m: nat)
    requires s != {}
    ensures m in s && forall k :: k in s ==> m <= k
    decreases |s|
  {
    var x :| x in s;
    var rest := s - {x};
    if rest == {} {
      assert s == {x};
      m := x;
    } else {
      var r := LeastOf(rest);
      m := if x < r then x else r;
      forall k | k in s
        ensures m <= k
      {
        if k != x {
          assert k in rest;
        }
      }
    }
  }

  /** Every non-empty set of ids has a least element. */
  lemma LeastExists(s: set<nat>)
    requires s != {}
    ensures exists m :: m in s && forall k :: k in s ==> m <= k
  {
    var m := LeastOf(s);
  }

  function Least(s: set<nat>): (m: nat)
    requires s != {}
    ensures m in s && forall k :: k in s ==> m <= k
  {
    LeastExists(s);
    var m :| m in s && forall k :: k in s ==> m <= k;
    m
  }

  /**
   * The ids of a set in ascending order: the order in which
   * `Object.values` lists the entries of an object with integer keys.
   */
  function Ascending(s: set<nat>): (r: seq<nat>)
    ensures |r| == |s|
    ensures forall k :: k in s <==> k in r
    ensures forall i, j :: 0 <= i < j < |r| ==> r[i] < r[j]
    decreases |s|
  {
    if s == {} then []
    else
      var m := Least(s);
      [m] + Ascending(s - {m})
  }

  /**
   * Points listed by ids that are the keys of `pointers` in strictly
   * ascending order are all points of active contacts, and the point of a
   * smaller id comes before the point of a larger one.
   */
  lemma ListedByIds(pointers: map<nat, Point>, ids: seq<nat>, r: seq<Point>)
    requires |ids| == |r|
    requires forall k :: k in pointers <==> k in ids
    requires forall i, j :: 0 <= i < j < |ids| ==> ids[i] < ids[j]
    requires forall i :: 0 <= i < |r| ==> ids[i] in pointers && r[i] == pointers[ids[i]]
    ensures forall i :: 0 <= i < |r| ==> r[i] in pointers.Values
    ensures forall a, b :: a in pointers && b in pointers && a < b ==>
      exists i, j :: 0 <= i < j < |r| && r[i] == pointers[a] && r[j] == pointers[b]
  {
    forall i | 0 <= i < |r|
      ensures r[i] in pointers.Values
    {
      assert ids[i] in pointers && r[i] == pointers[ids[i]];
    }
    forall a, b | a in pointers && b in pointers && a < b
      ensures exists i, j :: 0 <= i < j < |r| && r[i] == pointers[a] && r[j] == pointers[b]
    {
      var i :| 0 <= i < |ids| && ids[i] == a;
      var j :| 0 <= j < |ids| && ids[j] == b;
      assert i < j;
      assert r[i] == pointers[a] && r[j] == pointers[b];
    }
  }

  /** The points of the contacts `ids`, in the order of `ids`. */
  function PointsOf(pointers: map<nat, Point>, ids: seq<nat>): (r: seq<Point>)
    requires forall i :: 0 <= i < |ids| ==> ids[i] in pointers
    ensures |r| == |ids| && forall i :: 0 <= i < |ids| ==> r[i] == pointers[ids[i]]
  {
    seq(|ids|, i requires 0 <= i < |ids| => pointers[ids[i]])
  }

  /**
   * `Object.values(pointers)`: one point per active contact, each the point
   * of an active contact, with the point of a smaller id listed before the
   * point of a larger one.
   */
  function Contacts(pointers: map<nat, Point>): (r: seq<Point>)
    ensures |r| == |pointers|
    ensures forall i :: 0 <= i < |r| ==> r[i] in pointers.Values
    ensures forall a, b :: a in pointers && b in pointers && a < b ==>
      exists i, j :: 0 <= i < j < |r| && r[i] == pointers[a] && r[j] == pointers[b]
  {
    var ids := Ascending(pointers.Keys);
    var r := PointsOf(pointers, ids);
    ListedByIds(pointers, ids, r);
    r
  }

  /** The i-th point handed on is the point of the i-th smallest id. */
  lemma ContactsByRank(pointers: map<nat, Point>)
    ensures var ids := Ascending(pointers.Keys);
      (forall i :: 0 <= i < |ids| ==> ids[i] in pointers) && Contacts(pointers) == PointsOf(pointers, ids)
  {
  }

  /** Every active contact's point is among the contacts handed on. */
  lemma ContactsCover(pointers: map<nat, Point>)
    ensures forall id :: id in pointers ==> pointers[id] in Contacts(pointers)
  {
    var ids, r := Ascending(pointers.Keys), Contacts(pointers);
    ContactsByRank(pointers);
    forall id | id in pointers
      ensures pointers[id] in r
    {
      var i :| 0 <= i < |ids| && ids[i] == id;
      assert r[i] == pointers[id];
    }
  }

  /** A lone contact is passed on as exactly its own point. */
  lemma ContactsOfOne(id: nat, p: Point)
    ensures Contacts(map[id := p]) == [p]
  {
    var m := map[id := p];
    assert m.Keys == {id};
    assert |m| == 1;
    ContactsByRank(m);
    var r := Contacts(m);
    assert Ascending(m.Keys)[0] in m.Keys;
  }

  /**
   * After a release, the contacts handed on are exactly the other active
   * contacts: one fewer if the id was active, the same number otherwise,
   * and none of them is the released id's entry.
   */
  lemma ContactsAfterRelease(pointers: map<nat, Point>, id: nat)
    ensures |Contacts(pointers - {id})| == if id in pointers then |pointers| - 1 else |pointers|
    ensures forall k :: k in pointers && k != id ==> pointers[k] in Contacts(pointers - {id})
    ensures forall i :: 0 <= i < |Contacts(pointers - {id})| ==>
      var k := Ascending((pointers - {id}).Keys)[i];
      k != id && k in pointers && Contacts(pointers - {id})[i] == pointers[k]
  {
    var rest := pointers - {id};
    assert rest.Keys == pointers.Keys - {id};
    if id in pointers {
      assert |rest.Keys| == |pointers.Keys| - 1;
    } else {
      assert rest.Keys == pointers.Keys;
    }
    ContactsCover(rest);
    ContactsByRank(rest);
    var ids, r := Ascending(rest.Keys), Contacts(rest);
    forall k | k in pointers && k != id
      ensures pointers[k] in r
    {
      assert k in rest && rest[k] == pointers[k];
    }
    forall i | 0 <= i < |r|
      ensures ids[i] != id && ids[i] in pointers && r[i] == pointers[ids[i]]
    {
      assert ids[i] in rest && r[i] == rest[ids[i]];
    }
  }

  // ----- the mixin -----

  /**
   * A touchable surface. `pointerEvents` is the platform capability probed
   * with `window.PointerEvent`; `listeners` holds the registrations this
   * surface has made on its element and on the document.
   */
  class Touchable {
    const pointerEvents: bool
    const tracking: Tracking
    var pointers: map<nat, Point>
    var listeners: set<Listener>

    ghost predicate Valid()
      reads this, tracking
    {
      tracking.Valid()
    }

    constructor(pointerEvents: bool, env: Env)
      requires env.Valid()
      ensures Valid() && fresh(tracking)
      ensures this.pointerEvents == pointerEvents && tracking.env == env
      ensures tracking.tracked == [] && tracking.initial == None && tracking.latest == None
      ensures tracking.distance == 0.0 && tracking.zoom == 1.0
      ensures pointers == map[] && listeners == {}
      ensures tracking.log == [] && tracking.clock == 0.0
    {
      this.pointerEvents := pointerEvents;
      tracking := new Tracking(env);
      pointers := map[];
      listeners := {};
    }

    method AddEventListener(l: Listener)
      modifies this`listeners
      ensures listeners == old(listeners) + {l}
    {
      listeners := listeners + {l};
    }

    method RemoveEventListener(l: Listener)
      modifies this`listeners
      ensures listeners == old(listeners) - {l}
    {
      listeners := listeners - {l};
    }

    /** Registers the selected pathway and the wheel on the element. */
    method AddEventListeners()
      modifies this`listeners
      ensures listeners == old(listeners) + Pathway(pointerEvents)
    {
      if pointerEvents {
        AddEventListener(Listener(Element, PointerDown, PointerDownHandler));
        AddEventListener(Listener(Element, PointerMove, PointerMoveHandler));
        AddEventListener(Listener(Element, PointerUp, PointerFinishHandler));
        AddEventListener(Listener(Element, PointerCancel, PointerFinishHandler));
      } else {
        AddEventListener(Listener(Element, TouchStart, TouchStartHandler));
        AddEventListener(Listener(Element, TouchMove, TouchMoveHandler));
        AddEventListener(Listener(Element, TouchEnd, TouchFinishHandler));
        AddEventListener(Listener(Element, TouchCancel, TouchFinishHandler));
        AddEventListener(Listener(Element, MouseDown, MouseDownHandler));
      }
      AddEventListener(Listener(Element, Wheel, MouseWheelHandler));
    }

    /** Removes the wheel and the selected pathway from the element. */
    method RemoveEventListeners()
      modifies this`listeners
      ensures listeners == old(listeners) - Pathway(pointerEvents)
    {
      RemoveEventListener(Listener(Element, Wheel, MouseWheelHandler));
      if pointerEvents {
        RemoveEventListener(Listener(Element, PointerDown, PointerDownHandler));
        RemoveEventListener(Listener(Element, PointerMove, PointerMoveHandler));
        RemoveEventListener(Listener(Element, PointerUp, PointerFinishHandler));
        RemoveEventListener(Listener(Element, PointerCancel, PointerFinishHandler));
      } else {
        RemoveEventListener(Listener(Element, TouchStart, TouchStartHandler));
        RemoveEventListener(Listener(Element, TouchMove, TouchMoveHandler));
        RemoveEventListener(Listener(Element, TouchEnd, TouchFinishHandler));
        RemoveEventListener(Listener(Element, TouchCancel, TouchFinishHandler));
        RemoveEventListener(Listener(Element, MouseDown, MouseDownHandler));
      }
    }

    /**
     * A pointer goes down: record (or overwrite) its point and start a
     * gesture from all active contacts. The first contact starts a
     * single-point gesture at its own point.
     */
    method OnPointerDown(pointerId: nat, p: Point, now: real)
      requires Valid() && tracking.clock <= now
      modifies this`pointers, tracking
      ensures Valid() && tracking.clock == now
      ensures pointers == old(pointers)[pointerId := p]
      ensures var o := Started(tracking.env, old(tracking.State()), Contacts(pointers), now);
        tracking.State() == o.session && tracking.log == old(tracking.log) + o.fired
      ensures old(pointers).Keys <= {pointerId} ==> tracking.tracked == [TrackedPoint(now, p)]
    {
      pointers := pointers[pointerId := p];
      if old(pointers).Keys <= {pointerId} {
        assert pointers == map[pointerId := p];
        ContactsOfOne(pointerId, p);
      }
      var values := Contacts(pointers);
      tracking.Start(values, now);
    }

    /**
     * A pointer moves: only a pointer already in the table is updated and
     * passed on with all active contacts; any other is ignored.
     */
    method OnPointerMove(pointerId: nat, p: Point, now: real) returns (threw: bool)
      requires Valid() && tracking.clock <= now
      modifies this`pointers, tracking
      ensures Valid()
      ensures pointerId in old(pointers) ==>
        && pointers == old(pointers)[pointerId := p]
        && tracking.clock == now
        && var o := Moved(tracking.env, old(tracking.State()), Contacts(pointers), now);
          tracking.State() == o.session && tracking.log == old(tracking.log) + o.fired && threw == o.threw
      ensures pointerId !in old(pointers) ==>
        && pointers == old(pointers) && !threw
        && tracking.State() == old(tracking.State()) && tracking.log == old(tracking.log)
        && tracking.clock == old(tracking.clock)
    {
      threw := false;
      if pointerId in pointers {
        pointers := pointers[pointerId := p];
        var values := Contacts(pointers);
        threw := tracking.Move(values, now);
      }
    }

    /**
     * A pointer lifts or is cancelled: remove it from the table (a no-op
     * if absent) and finish with the contacts that remain.
     */
    method OnPointerFinish(pointerId: nat, now: real)
      requires Valid() && tracking.clock <= now
      modifies this`pointers, tracking
      ensures Valid() && tracking.clock == now
      ensures pointers == old(pointers) - {pointerId} && pointerId !in pointers
      ensures var o := Finished(tracking.env, old(tracking.State()), Contacts(pointers), now);
        tracking.State() == o.session && tracking.log == old(tracking.log) + o.fired
    {
      pointers := pointers - {pointerId};
      var values := Contacts(pointers);
      tracking.Finish(values, now);
    }

    /** Touches start: start a gesture from the points of all target touches. */
    method OnTouchStart(touches: seq<Point>, now: real)
      requires Valid() && tracking.clock <= now
      modifies tracking
      ensures Valid() && tracking.clock == now
      ensures var o := Started(tracking.env, old(tracking.State()), touches, now);
        tracking.State() == o.session && tracking.log == old(tracking.log) + o.fired
    {
      tracking.Start(touches, now);
    }

    /** Touches move: move with the points of all target touches. */
    method OnTouchMove(touches: seq<Point>, now: real) returns (threw: bool)
      requires Valid() && tracking.clock <= now
      modifies tracking
      ensures Valid() && tracking.clock == now
      ensures var o := Moved(tracking.env, old(tracking.State()), touches, now);
        tracking.State() == o.session && tracking.log == old(tracking.log) + o.fired && threw == o.threw
    {
      threw := tracking.Move(touches, now);
    }

    /** A touch ends or is cancelled: finish with the target touches left. */
    method OnTouchFinish(touches: seq<Point>, now: real)
      requires Valid() && tracking.clock <= now
      modifies tracking
      ensures Valid() && tracking.clock == now
      ensures var o := Finished(tracking.env, old(tracking.State()), touches, now);
        tracking.State() == o.session && tracking.log == old(tracking.log) + o.fired
    {
      tracking.Finish(touches, now);
    }

    /**
     * The mouse goes down: start a single-point gesture and follow the
     * drag on the whole document.
     */
    method OnMouseDown(p: Point, now: real)
      requires Valid() && tracking.clock <= now
      modifies this`listeners, tracking
      ensures Valid() && tracking.clock == now
      ensures listeners == old(listeners) + DragListeners()
      ensures var o := Started(tracking.env, old(tracking.State()), [p], now);
        tracking.State() == o.session && tracking.log == old(tracking.log) + o.fired
      ensures tracking.tracked == [TrackedPoint(now, p)]
      ensures tracking.log == old(tracking.log) + Notify(tracking.env.hooks, OnMove(p, p))
    {
      tracking.Start([p], now);
      AddEventListener(Listener(Document, MouseMove, MouseMoveHandler));
      AddEventListener(Listener(Document, MouseUp, MouseUpHandler));
    }

    /**
     * The mouse moves during a drag: move with its single point. This is
     * the handler run with `this` bound to the surface, as intended; see
     * `OnMouseMoveAsWritten` for how the code actually runs it.
     */
    method OnMouseMove(p: Point, now: real) returns (threw: bool)
      requires Valid() && tracking.clock <= now
      modifies tracking
      ensures Valid() && tracking.clock == now
      ensures var o := Moved(tracking.env, old(tracking.State()), [p], now);
        tracking.State() == o.session && tracking.log == old(tracking.log) + o.fired && threw == o.threw
    {
      threw := tracking.Move([p], now);
    }

    /**
     * The mouse goes up: finish with its single point, then stop following
     * the document. One remaining point makes Tracking restart from it: no
     * `onFinish` is reported, the history is just that point, and zoom and
     * distance are reset. This is the handler run with `this` bound to the
     * surface, as intended; see `OnMouseUpAsWritten`.
     */
    method OnMouseUp(p: Point, now: real)
      requires Valid() && tracking.clock <= now
      modifies this`listeners, tracking
      ensures Valid() && tracking.clock == now
      ensures listeners == old(listeners) - DragListeners()
      ensures var o := Finished(tracking.env, old(tracking.State()), [p], now);
        tracking.State() == o.session && tracking.log == old(tracking.log) + o.fired
      ensures tracking.tracked == [TrackedPoint(now, p)]
      ensures tracking.zoom == 1.0 && tracking.distance == 0.0
      ensures tracking.log == old(tracking.log) + Notify(tracking.env.hooks, OnMove(p, p))
    {
      tracking.Finish([p], now);
      RemoveEventListener(Listener(Document, MouseMove, MouseMoveHandler));
      RemoveEventListener(Listener(Document, MouseUp, MouseUpHandler));
    }

    /**
     * `onMouseMove` as the code registers it: the unbound method is added
     * to `document`, and the DOM calls a listener function with `this` set
     * to the target it was registered on, here `receiver`. On the surface
     * it is `OnMouseMove`. On `document`, `this[tracking]` is undefined, so
     * calling `move` on it throws before anything changes.
     */
    method OnMouseMoveAsWritten(receiver: Target, p: Point, now: real) returns (threw: bool)
      requires Valid() && tracking.clock <= now
      modifies tracking
      ensures Valid()
      ensures threw <==> receiver == Document || Moved(tracking.env, old(tracking.State()), [p], now).threw
      ensures receiver == Document ==> unchanged(tracking)
      ensures receiver == Element ==>
        && tracking.clock == now
        && var o := Moved(tracking.env, old(tracking.State()), [p], now);
          tracking.State() == o.session && tracking.log == old(tracking.log) + o.fired
    {
      if receiver == Document {
        threw := true;
        return;
      }
      threw := OnMouseMove(p, now);
    }

    /**
     * `onMouseUp` as the code registers it, run with `this` set to
     * `receiver`. On `document` the call of `finish` throws, so neither the
     * gesture nor the registrations change: the drag listeners are never
     * removed.
     */
    method OnMouseUpAsWritten(receiver: Target, p: Point, now: real) returns (threw: bool)
      requires Valid() && tracking.clock <= now
      modifies this`listeners, tracking
      ensures Valid()
      ensures threw <==> receiver == Document
      ensures receiver == Document ==> unchanged(this, tracking)
      ensures receiver == Element ==>
        && tracking.clock == now
        && listeners == old(listeners) - DragListeners()
        && var o := Finished(tracking.env, old(tracking.State()), [p], now);
          tracking.State() == o.session && tracking.log == old(tracking.log) + o.fired
    {
      if receiver == Document {
        threw := true;
        return;
      }
      OnMouseUp(p, now);
      threw := false;
    }

    /** The wheel turns: forward the point and the vertical delta to `zoomBy`. */
    method OnMouseWheel(p: Point, deltaY: real)
      requires Valid()
      modifies tracking
      ensures Valid()
      ensures tracking.State() == old(tracking.State()) && tracking.clock == old(tracking.clock)
      ensures tracking.log == old(tracking.log) + Notify(tracking.env.hooks, OnZoomBy(p, deltaY))
    {
      tracking.ZoomBy(p, deltaY);
    }
  }

  /**
   * Connecting and then disconnecting a surface that had made no element
   * registrations leaves it with none, whichever pathway the platform
   * selects; the contact table is untouched.
   */
  method ConnectThenDisconnect(t: Touchable)
    requires forall l :: l in t.listeners ==> l.target == Document
    modifies t
    ensures t.listeners == old(t.listeners)
    ensures t.pointers == old(t.pointers)
  {
    t.AddEventListeners();
    t.RemoveEventListeners();
  }

  /**
   * The document delivers a mousemove and a mouseup at `p` to the drag
   * listeners registered on it: each handler runs with the document as its
   * receiver, throws, and leaves the surface and its tracker as they were.
   */
  method DeliverOnDocument(t: Touchable, p: Point, t1: real, t2: real)
      returns (moveThrew: bool, upThrew: bool)
    requires t.Valid() && t.tracking.clock <= t1 <= t2
    requires DragListeners() <= t.listeners
    modifies t, t.tracking
    ensures moveThrew && upThrew
    ensures t.listeners == old(t.listeners) && t.tracking.log == old(t.tracking.log)
  {
    var move := Listener(Document, MouseMove, MouseMoveHandler);
    var up := Listener(Document, MouseUp, MouseUpHandler);
    assert move in t.listeners && up in t.listeners;
    moveThrew := t.OnMouseMoveAsWritten(move.target, p, t1);
    upThrew := t.OnMouseUpAsWritten(up.target, p, t2);
  }

  /**
   * A mouse drag as the code wires it: mousedown on the element at `p0`,
   * then mousemove and mouseup at `p1`, which the document delivers to the
   * listeners mousedown registered on it. Only the start is reported, both
   * document handlers throw, and the drag listeners stay registered.
   */
  method MouseDragAsWritten(t: Touchable, p0: Point, p1: Point, t0: real, t1: real, t2: real)
      returns (moveThrew: bool, upThrew: bool)
    requires t.Valid() && t.tracking.clock <= t0 <= t1 <= t2
    modifies t, t.tracking
    ensures moveThrew && upThrew
    ensures t.listeners == old(t.listeners) + DragListeners()
    ensures t.tracking.log == old(t.tracking.log) + Notify(t.tracking.env.hooks, OnMove(p0, p0))
  {
    t.OnMouseDown(p0, t0);
    moveThrew, upThrew := DeliverOnDocument(t, p1, t1, t2);
  }

  /**
   * The same drag with the handlers bound to the surface: the start, the
   * move relative to it and the restart at the release point are reported,
   * and the drag listeners are gone afterwards.
   */
  method MouseDrag(t: Touchable, p0: Point, p1: Point, t0: real, t1: real, t2: real)
    requires t.Valid() && t.tracking.clock <= t0 <= t1 <= t2
    modifies t, t.tracking
    ensures t.listeners == old(t.listeners) - DragListeners()
    ensures var hooks := t.tracking.env.hooks;
      t.tracking.log == old(t.tracking.log)
        + Notify(hooks, OnMove(p0, p0)) + Notify(hooks, OnMove(p0, p1)) + Notify(hooks, OnMove(p1, p1))
  {
    t.OnMouseDown(p0, t0);
    UnionThenDifference(old(t.listeners), DragListeners());
    assert t.tracking.initial == Some(TrackedPoint(t0, p0));
    MoveFromStart(t, p0, p1, t1);
    ghost var moved := t.tracking.State();
    t.OnMouseUp(p1, t2);
    FinishOneRemainingRestarts(t.tracking.env, moved, p1, t2);
  }

  /** Adding a set of registrations and then removing it leaves what was there apart from it. */
  lemma UnionThenDifference(a: set<Listener>, d: set<Listener>)
    ensures (a + d) - d == a - d
  {
  }

  /**
   * A mousemove to `p` once a drag has started at `p0`: the move is
   * reported relative to the start, and the registrations are untouched.
   */
  method MoveFromStart(t: Touchable, p0: Point, p: Point, now: real)
    requires t.Valid() && t.tracking.clock <= now
    requires t.tracking.initial.Some? && t.tracking.initial.value.point == p0
    modifies t.tracking
    ensures t.Valid() && t.tracking.clock == now
    ensures t.listeners == old(t.listeners)
    ensures t.tracking.log == old(t.tracking.log) + Notify(t.tracking.env.hooks, OnMove(p0, p))
  {
    ghost var started := t.tracking.State();
    // The tracker is a separate object: its updates leave the registrations alone.
    assert t != t.tracking as object;
    var _ := t.OnMouseMove(p, now);
    if MoveHook in t.tracking.env.hooks {
      OneFingerMoveReportsFromStart(t.tracking.env, started, p, now);
    }
  }
}

=== FILE: tracking.dfy ===
/**
 * The gesture interpreter of src/tracking.ts.
 *
 * The behaviour of each operation is first given as a function on a
 * `Session` value (the fields of a `Tracking` object), returning the new
 * session, the callbacks delivered to the surface and whether the source
 * would throw. The class `Tracking` then updates its fields in place, as
 * the source does, and each of its methods is proved to agree with that
 * function. The lemmas state what the gesture logic promises.
 */
module GestureTracking {
  import opened Wrappers
  import opened Geometry

  /** How long, in milliseconds, a tracked point stays in the history. */
  const WINDOW: real := 100.0

  /** Divisor turning a change of finger separation into a zoom exponent. */
  const PINCH_DIVISOR: real := 10.0

  /** A point with the time at which it was tracked. */
  datatype TrackedPoint = TrackedPoint(time: real, point: Point)

  /** The optional callbacks a surface may define. */
  datatype Hook = MoveHook | FinishHook | ZoomToHook | ZoomByHook

  /** One invocation of a surface callback, with its arguments. */
  datatype Callback =
    | OnMove(start: Point, point: Point)
    | OnFinish(start: Point, point: Point, duration: real)
    | OnZoomTo(start: Point, point: Point, zoom: real)
    | OnZoomBy(point: Point, direction: real)
  {
    function Kind(): Hook
    {
      match this
      case OnMove(_, _) => MoveHook
      case OnFinish(_, _, _) => FinishHook
      case OnZoomTo(_, _, _) => ZoomToHook
      case OnZoomBy(_, _) => ZoomByHook
    }
  }

  /**
   * What the surrounding system supplies: the callbacks the surface
   * defines, the distance between two points (a square root in the
   * geometry library) and the power function x |-> 1.06^x (floating point).
   * The only fact the code relies on about the power is that it is positive.
   */
  datatype Env = Env(hooks: set<Hook>, dist: (Point, Point) -> real, pow: real -> real)
  {
    ghost predicate Valid()
    {
      forall e :: pow(e) > 0.0
    }
  }

  /**
   * The callbacks delivered when the code invokes `c` behind a guard such
   * as `touchable.onMove && touchable.onMove(...)`.
   */
  function Notify(hooks: set<Hook>, c: Callback): seq<Callback>
  {
    if c.Kind() in hooks then [c] else []
  }

  /** The state of a `Tracking` object. */
  datatype Session = Session(
    tracked: seq<TrackedPoint>,
    initial: Option<TrackedPoint>,
    latest: Option<TrackedPoint>,
    distance: real,
    zoom: real)

  /**
   * The effect of one operation: the new session, the callbacks fired, and
   * whether the source would stop with a TypeError (reading `initial` while
   * it is still undefined).
   */
  datatype Outcome = Outcome(session: Session, fired: seq<Callback>, threw: bool)

  // ----- the history window -----

  /** Times never decrease along the history. */
  ghost predicate Sorted(h: seq<TrackedPoint>)
  {
    forall i, j :: 0 <= i <= j < |h| ==> h[i].time <= h[j].time
  }

  /**
   * The history after evicting from the front every entry more than
   * `WINDOW` older than `now`, stopping at the first entry that is not.
   * What remains is a suffix of the history, and its first entry (if any)
   * is inside the window.
   */
  function Trimmed(h: seq<TrackedPoint>, now: real): (r: seq<TrackedPoint>)
    ensures |r| <= |h|
    ensures |r| > 0 ==> now - r[0].time <= WINDOW
    decreases |h|
  {
    if |h| > 0 && now - h[0].time > WINDOW then Trimmed(h[1..], now) else h
  }

  /** Trimming removes a prefix: what remains is a suffix, in the same order. */
  lemma {:induction false} TrimmedIsSuffix(h: seq<TrackedPoint>, now: real)
    ensures Trimmed(h, now) == h[|h| - |Trimmed(h, now)|..]
    decreases |h|
  {
    if |h| > 0 && now - h[0].time > WINDOW {
      TrimmedIsSuffix(h[1..], now);
    }
  }

  /** Every evicted entry was outside the window. */
  lemma {:induction false} TrimmedDropsOnlyExpired(h: seq<TrackedPoint>, now: real)
    ensures forall i :: 0 <= i < |h| - |Trimmed(h, now)| ==> now - h[i].time > WINDOW
    decreases |h|
  {
    if |h| > 0 && now - h[0].time > WINDOW {
      TrimmedDropsOnlyExpired(h[1..], now);
      TrimmedIsSuffix(h[1..], now);
      forall i | 1 <= i < |h| - |Trimmed(h, now)|
        ensures now - h[i].time > WINDOW
      {
        assert h[i] == h[1..][i - 1];
      }
    }
  }

  /**
   * On a time-ordered history, trimming keeps exactly the entries inside
   * the window: front eviction is enough, no search is needed.
   */
  lemma TrimmedIsWindow(h: seq<TrackedPoint>, now: real)
    requires Sorted(h)
    ensures forall e :: e in Trimmed(h, now) <==> e in h && now - e.time <= WINDOW
  {
    var r := Trimmed(h, now);
    var k := |h| - |r|;
    TrimmedDropsOnlyExpired(h, now);
    TrimmedIsSuffix(h, now);
    assert r == h[k..];
    forall e | e in r
      ensures e in h && now - e.time <= WINDOW
    {
      var j :| 0 <= j < |r| && r[j] == e;
      assert r[j] == h[k + j] && r[0] == h[k];
      assert h[k].time <= h[k + j].time;
    }
    forall e | e in h && now - e.time <= WINDOW
      ensures e in r
    {
      var i :| 0 <= i < |h| && h[i] == e;
      assert k <= i;
      assert r[i - k] == e;
    }
  }

  // ----- the session invariant -----

  /**
   * The invariant of a session whose operations were all given times up
   * to `clock`: the history is time-ordered, holds nothing from the future,
   * and, when non-empty, ends with `latest`.
   */
  ghost predicate Coherent(s: Session, clock: real)
  {
    && Sorted(s.tracked)
    && (forall i :: 0 <= i < |s.tracked| ==> s.tracked[i].time <= clock)
    && (|s.tracked| > 0 ==> s.latest == Some(s.tracked[|s.tracked| - 1]))
  }

  /**
   * `add`: trim the history at `now`, then append `point` as `latest`. The
   * history grows by at most one entry, ends with the new entry, and
   * `initial`, `distance` and `zoom` are untouched.
   */
  function Added(s: Session, point: Point, now: real): (r: Session)
    ensures r.latest == Some(TrackedPoint(now, point))
    ensures 0 < |r.tracked| <= |s.tracked| + 1 && r.tracked[|r.tracked| - 1] == TrackedPoint(now, point)
    ensures r.initial == s.initial && r.distance == s.distance && r.zoom == s.zoom
  {
    var e := TrackedPoint(now, point);
    s.(tracked := Trimmed(s.tracked, now) + [e], latest := Some(e))
  }

  /** A suffix of a time-ordered history is time-ordered and ends where it did. */
  lemma SuffixSorted(h: seq<TrackedPoint>, k: nat, clock: real)
    requires k <= |h| && Sorted(h)
    requires forall i :: 0 <= i < |h| ==> h[i].time <= clock
    ensures Sorted(h[k..])
    ensures forall i :: 0 <= i < |h[k..]| ==> h[k..][i].time <= clock
    ensures k < |h| ==> h[k..][|h[k..]| - 1] == h[|h| - 1]
  {
    var r := h[k..];
    forall i, j | 0 <= i <= j < |r|
      ensures r[i].time <= r[j].time
    {
      assert r[i] == h[k + i] && r[j] == h[k + j];
    }
  }

  /** Trimming at a later time keeps the invariant. */
  lemma TrimmedCoherent(s: Session, clock: real, now: real)
    requires Coherent(s, clock) && clock <= now
    ensures Coherent(s.(tracked := Trimmed(s.tracked, now)), now)
  {
    var h, r := s.tracked, Trimmed(s.tracked, now);
    var k := |h| - |r|;
    TrimmedIsSuffix(h, now);
    assert r == h[k..];
    SuffixSorted(h, k, clock);
    assert Sorted(r);
    forall i | 0 <= i < |r|
      ensures r[i].time <= now
    {
      assert r[i].time <= clock;
    }
    if |r| > 0 {
      assert r[|r| - 1] == h[|h| - 1];
    }
  }

  /**
   * `add` at a time no earlier than any before keeps the history ordered,
   * and the new entry is `latest`, at the end, with time `now`.
   */
  lemma AddedCoherent(s: Session, point: Point, clock: real, now: real)
    requires Coherent(s, clock) && clock <= now
    ensures Coherent(Added(s, point, now), now)
    ensures Added(s, point, now).latest == Some(TrackedPoint(now, point))
    ensures var h := Added(s, point, now).tracked; |h| > 0 && h[|h| - 1] == TrackedPoint(now, point)
  {
    TrimmedCoherent(s, clock, now);
    var r := Trimmed(s.tracked, now);
    var h := r + [TrackedPoint(now, point)];
    forall i, j | 0 <= i <= j < |h|
      ensures h[i].time <= h[j].time
    {
      if j < |r| {
        assert h[i] == r[i] && h[j] == r[j];
      } else if i < |r| {
        assert h[i] == r[i];
      }
    }
  }

  // ----- the operations, as functions of the session -----

  /**
   * `start(...points)`: empty the history, reset `distance` and `zoom`;
   * with one point track it, with two track the centre of their bounding
   * rectangle, and report the new gesture with `onMove`; with any other
   * number of points return before touching `initial`.
   *
   * It never throws, leaves at most one entry in the history, and reports
   * at most one callback: an `onMove` whose start and position coincide.
   */
  function Started(env: Env, s: Session, points: seq<Point>, now: real): (r: Outcome)
    ensures !r.threw && r.session.distance == 0.0 && r.session.zoom == 1.0
    ensures |r.session.tracked| <= 1 && |r.fired| <= 1
    ensures r.fired != [] ==> r.fired[0].OnMove? && r.fired[0].start == r.fired[0].point
  {
    var reset := s.(tracked := [], distance := 0.0, zoom := 1.0);
    if |points| == 1 || |points| == 2 then
      var p := if |points| == 1 then points[0] else Center(points[0], points[1]);
      var added := Added(reset, p, now);
      var session := added.(initial := added.latest);
      Outcome(session, Notify(env.hooks, OnMove(session.initial.value.point, session.latest.value.point)), false)
    else
      Outcome(reset, [], false)
  }

  /**
   * `move(...points)`: with one point track it and report `onMove`; with
   * two track their centre and, once a previous separation exists, scale
   * `zoom` by pow((d - distance) / 10) and report `onZoomTo`; then record
   * the separation. With any other number of points nothing happens.
   * Evaluating `initial.point` for a callback while `initial` is undefined
   * throws, which ends the operation there.
   *
   * It never changes `initial`; it throws only while `initial` is
   * undefined, and then reports nothing; whatever it reports is relative
   * to the gesture's start point.
   */
  function Moved(env: Env, s: Session, points: seq<Point>, now: real): (r: Outcome)
    ensures r.session.initial == s.initial
    ensures r.threw ==> s.initial.None? && r.fired == []
    ensures |r.fired| <= 1
    ensures r.fired != [] ==>
      && (r.fired[0].OnMove? || r.fired[0].OnZoomTo?)
      && s.initial.Some? && r.fired[0].start == s.initial.value.point
  {
    if |points| == 1 then
      var added := Added(s, points[0], now);
      if MoveHook !in env.hooks then Outcome(added, [], false)
      else if s.initial.None? then Outcome(added, [], true)
      else Outcome(added, [OnMove(s.initial.value.point, added.latest.value.point)], false)
    else if |points| == 2 then
      var p := Center(points[0], points[1]);
      var added := Added(s, p, now);
      var d := env.dist(points[0], points[1]);
      if s.distance == 0.0 then
        Outcome(added.(distance := d), [], false)
      else
        var factor := env.pow((d - s.distance) / PINCH_DIVISOR);
        var zoomed := added.(zoom := s.zoom * factor);
        if ZoomToHook !in env.hooks then Outcome(zoomed.(distance := d), [], false)
        else if s.initial.None? then Outcome(zoomed, [], true)
        else Outcome(zoomed.(distance := d), [OnZoomTo(s.initial.value.point, p, zoomed.zoom)], false)
    else
      Outcome(s, [], false)
  }

  /**
   * `finish(...points)`, given the contacts that remain: when none remain,
   * trim the history and, if at least two entries are left, report
   * `onFinish` from the oldest to the newest; when one remains, start
   * afresh from it; otherwise nothing happens.
   *
   * It never throws and reports at most one callback: `onFinish` only when
   * no contact remains, `onMove` only when one does.
   */
  function Finished(env: Env, s: Session, points: seq<Point>, now: real): (r: Outcome)
    ensures !r.threw && |r.fired| <= 1
    ensures r.fired != [] && r.fired[0].OnFinish? ==> |points| == 0
    ensures r.fired != [] && r.fired[0].OnMove? ==> |points| == 1
    ensures r.fired != [] ==> r.fired[0].OnFinish? || r.fired[0].OnMove?
  {
    if |points| + 1 == 1 then
      var trimmed := s.(tracked := Trimmed(s.tracked, now));
      var h := trimmed.tracked;
      if |h| > 1 then
        Outcome(trimmed, Notify(env.hooks, OnFinish(h[0].point, h[|h| - 1].point, h[|h| - 1].time - h[0].time)), false)
      else
        Outcome(trimmed, [], false)
    else if |points| + 1 == 2 then
      Started(env, s, points, now)
    else
      Outcome(s, [], false)
  }

  /** `zoomBy(point, direction)`: forward to `onZoomBy`, touching no state. */
  function ZoomedBy(env: Env, s: Session, point: Point, direction: real): (r: Outcome)
    ensures r.session == s && !r.threw
    ensures forall c :: c in r.fired ==> c == OnZoomBy(point, direction)
    ensures r.fired != [] <==> ZoomByHook in env.hooks
    ensures |r.fired| <= 1
    ensures ZoomByHook in env.hooks ==> r.fired == [OnZoomBy(point, direction)]
  {
    Outcome(s, Notify(env.hooks, OnZoomBy(point, direction)), false)
  }

  // ----- what the operations promise -----

  /** Every operation at a time no earlier than the last keeps the invariant. */
  lemma StepsKeepInvariant(env: Env, s: Session, points: seq<Point>, clock: real, now: real)
    requires Coherent(s, clock) && clock <= now
    ensures Coherent(Started(env, s, points, now).session, now)
    ensures Coherent(Moved(env, s, points, now).session, now)
    ensures Coherent(Finished(env, s, points, now).session, now)
  {
    var reset := s.(tracked := [], distance := 0.0, zoom := 1.0);
    if |points| == 1 || |points| == 2 {
      var p := if |points| == 1 then points[0] else Center(points[0], points[1]);
      AddedCoherent(reset, p, clock, now);
      AddedCoherent(s, p, clock, now);
    }
    if |points| == 0 {
      TrimmedCoherent(s, clock, now);
    }
  }

  /** A positive zoom stays positive whatever the operation. */
  lemma ZoomStaysPositive(env: Env, s: Session, points: seq<Point>, now: real)
    requires env.Valid() && s.zoom > 0.0
    ensures Started(env, s, points, now).session.zoom > 0.0
    ensures Moved(env, s, points, now).session.zoom > 0.0
    ensures Finished(env, s, points, now).session.zoom > 0.0
  {
    if |points| == 2 && s.distance != 0.0 {
      var d := env.dist(points[0], points[1]);
      var factor := env.pow((d - s.distance) / PINCH_DIVISOR);
      assert factor > 0.0;
      assert s.zoom * factor > 0.0;
    }
  }

  /**
   * `start` always empties the history and resets `distance` to 0 and
   * `zoom` to 1. With one or two points the tracked point (the point, or
   * the centre of the two) becomes the whole history, `initial` and
   * `latest`, and `onMove` reports it as both start and position. With any
   * other number nothing is reported, the history stays empty and
   * `initial` and `latest` keep their old values.
   */
  lemma StartResets(env: Env, s: Session, points: seq<Point>, now: real)
    ensures var o := Started(env, s, points, now);
      && o.session.distance == 0.0 && o.session.zoom == 1.0 && !o.threw
      && (|points| == 1 || |points| == 2 ==>
            var p := if |points| == 1 then points[0] else Center(points[0], points[1]);
            && o.session.tracked == [TrackedPoint(now, p)]
            && o.session.initial == o.session.latest == Some(TrackedPoint(now, p))
            && o.fired == Notify(env.hooks, OnMove(p, p)))
      && (|points| != 1 && |points| != 2 ==>
            && o.session.tracked == [] && o.fired == []
            && o.session.initial == s.initial && o.session.latest == s.latest)
  {
  }

  /**
   * Two contacts are tracked as the centre of their bounding rectangle,
   * both by `start` and by `move`: it becomes `latest` and the newest
   * history entry, and it is never one of the raw points unless the two
   * coincide.
   */
  lemma TwoPointsTrackCenter(env: Env, s: Session, a: Point, b: Point, now: real)
    ensures var c := TrackedPoint(now, Center(a, b));
      && Started(env, s, [a, b], now).session.latest == Some(c)
      && Started(env, s, [a, b], now).session.tracked == [c]
      && Moved(env, s, [a, b], now).session.latest == Some(c)
      && var h := Moved(env, s, [a, b], now).session.tracked; |h| > 0 && h[|h| - 1] == c
    ensures Center(a, b) == a || Center(a, b) == b <==> a == b
  {
    CenterIsInputIffCoincident(a, b);
    assert [a, b][0] == a && [a, b][1] == b;
    var added := Added(s, Center(a, b), now);
    var m := Moved(env, s, [a, b], now).session;
    assert m.tracked == added.tracked && m.latest == added.latest;
  }

  /**
   * A two-point `move` reports `onZoomTo` only when the previous
   * separation is non-zero, multiplies `zoom` by the factor exactly then,
   * and (unless it throws) records the new separation.
   */
  lemma PinchZoomGuard(env: Env, s: Session, a: Point, b: Point, now: real)
    ensures var o := Moved(env, s, [a, b], now);
      && (o.fired != [] ==> s.distance != 0.0)
      && (s.distance == 0.0 ==> o.session.zoom == s.zoom && o.session.distance == env.dist(a, b))
      && (s.distance != 0.0 ==>
            o.session.zoom == s.zoom * env.pow((env.dist(a, b) - s.distance) / PINCH_DIVISOR))
      && (!o.threw ==> o.session.distance == env.dist(a, b))
      && (s.distance != 0.0 && ZoomToHook in env.hooks && s.initial.Some? ==>
            o.fired == [OnZoomTo(s.initial.value.point, Center(a, b), o.session.zoom)])
      && o.session.initial == s.initial
  {
  }

  /**
   * The first two-point `move` after any `start` never zooms: it only
   * records the separation as the baseline.
   */
  lemma FirstPinchMoveNeverZooms(env: Env, s: Session, points: seq<Point>, a: Point, b: Point, t0: real, t1: real)
    ensures var started := Started(env, s, points, t0).session;
      var o := Moved(env, started, [a, b], t1);
      && o.fired == [] && !o.threw
      && o.session.zoom == 1.0 && o.session.distance == env.dist(a, b)
  {
  }

  /**
   * `zoom` changes only in a two-point `move` (by the factor) and in
   * `start` (back to 1). A one-point `move`, a `finish` with no or with
   * two or more remaining contacts, and `zoomBy` leave `zoom`, `distance`
   * and `initial` as they were.
   */
  lemma OnlyPinchMovesZoom(env: Env, s: Session, points: seq<Point>, p: Point, direction: real, now: real)
    ensures |points| != 2 ==>
      var o := Moved(env, s, points, now);
      o.session.zoom == s.zoom && o.session.distance == s.distance && o.session.initial == s.initial
    ensures |points| != 1 ==>
      var o := Finished(env, s, points, now);
      o.session.zoom == s.zoom && o.session.distance == s.distance && o.session.initial == s.initial
    ensures ZoomedBy(env, s, p, direction).session == s
  {
  }

  /**
   * `finish` when the last contact lifts: the history is trimmed to the
   * window, and `onFinish(oldest, newest, duration)` fires exactly when at
   * least two entries remain (and the surface defines it). On a coherent
   * session the duration lies between 0 and the window length.
   */
  lemma FinishLastContact(env: Env, s: Session, clock: real, now: real)
    requires Coherent(s, clock) && clock <= now
    ensures var o := Finished(env, s, [], now);
      var h := Trimmed(s.tracked, now);
      && o.session == s.(tracked := h) && !o.threw
      && (FinishHook in env.hooks ==> (o.fired != [] <==> |h| >= 2))
      && (o.fired != [] ==>
            && |h| >= 2
            && o.fired == [OnFinish(h[0].point, h[|h| - 1].point, h[|h| - 1].time - h[0].time)]
            && 0.0 <= o.fired[0].duration <= WINDOW)
  {
    var h := Trimmed(s.tracked, now);
    TrimmedCoherent(s, clock, now);
    if |h| >= 2 {
      TrimmedIsWindow(s.tracked, now);
      assert h[|h| - 1] in h;
    }
  }

  /**
   * `finish` with exactly one remaining contact (two fingers dropping to
   * one) is a fresh `start` from that contact; it never reports
   * `onFinish`.
   */
  lemma FinishOneRemainingRestarts(env: Env, s: Session, p: Point, now: real)
    ensures Finished(env, s, [p], now) == Started(env, s, [p], now)
    ensures Finished(env, s, [p], now).fired == Notify(env.hooks, OnMove(p, p))
  {
  }

  /** `finish` with two or more remaining contacts changes nothing. */
  lemma FinishManyRemainingChangesNothing(env: Env, s: Session, points: seq<Point>, now: real)
    requires |points| >= 2
    ensures Finished(env, s, points, now) == Outcome(s, [], false)
  {
  }

  /**
   * Which of two contacts comes first does not matter to `start`: both
   * orders track the same centre.
   */
  lemma StartIgnoresContactOrder(env: Env, s: Session, a: Point, b: Point, now: real)
    ensures Started(env, s, [a, b], now) == Started(env, s, [b, a], now)
  {
    CenterSymmetric(a, b);
  }

  /**
   * Every one-point `move` while a gesture is under way reports `onMove`
   * from the gesture's start point to the new point, and does not throw.
   */
  lemma OneFingerMoveReportsFromStart(env: Env, s: Session, p: Point, now: real)
    requires MoveHook in env.hooks && s.initial.Some?
    ensures var o := Moved(env, s, [p], now);
      && o.fired == [OnMove(s.initial.value.point, p)]
      && !o.threw && o.session.initial == s.initial
  {
  }

  /** One-point moves to the points of `path`, stopping at the first that throws. */
  function MovedAlong(env: Env, s: Session, path: seq<TrackedPoint>): Outcome
    decreases |path|
  {
    if path == [] then Outcome(s, [], false)
    else
      var o := Moved(env, s, [path[0].point], path[0].time);
      if o.threw then o
      else
        var rest := MovedAlong(env, o.session, path[1..]);
        Outcome(rest.session, o.fired + rest.fired, rest.threw)
  }

  /**
   * Along any run of one-point moves in a gesture under way, each move
   * reports `onMove` from the same start point to its own point.
   */
  lemma {:induction false} DragReportsFromStart(env: Env, s: Session, path: seq<TrackedPoint>)
    requires MoveHook in env.hooks && s.initial.Some?
    ensures var o := MovedAlong(env, s, path);
      && !o.threw && o.session.initial == s.initial && |o.fired| == |path|
      && forall i :: 0 <= i < |path| ==> o.fired[i] == OnMove(s.initial.value.point, path[i].point)
    decreases |path|
  {
    if path != [] {
      var o := Moved(env, s, [path[0].point], path[0].time);
      OneFingerMoveReportsFromStart(env, s, path[0].point, path[0].time);
      DragReportsFromStart(env, o.session, path[1..]);
      var rest := MovedAlong(env, o.session, path[1..]);
      forall i | 1 <= i < |path|
        ensures (o.fired + rest.fired)[i] == OnMove(s.initial.value.point, path[i].point)
      {
        assert path[1..][i - 1] == path[i];
      }
    }
  }

  /**
   * A one-finger gesture: after a one-point `start` at `p0`, every
   * following one-point move reports `onMove(p0, its point)`.
   */
  lemma OneFingerGesture(env: Env, s: Session, p0: Point, t0: real, path: seq<TrackedPoint>)
    requires MoveHook in env.hooks
    ensures var o0 := Started(env, s, [p0], t0);
      var o := MovedAlong(env, o0.session, path);
      && o0.fired == [OnMove(p0, p0)]
      && !o.threw && |o.fired| == |path|
      && forall i :: 0 <= i < |path| ==> o.fired[i] == OnMove(p0, path[i].point)
  {
    DragReportsFromStart(env, Started(env, s, [p0], t0).session, path);
  }

  /**
   * A pinch while no gesture has been started throws: a `start` with a
   * point count other than one or two leaves `initial` undefined, the first
   * two-point move sets the baseline, and the second, with a baseline that
   * is not zero, reads `initial.point` for `onZoomTo` and throws.
   */
  lemma PinchWithoutStartThrows(env: Env, s: Session, points: seq<Point>, a: Point, b: Point, c: Point, d: Point, t0: real, t1: real, t2: real)
    requires s.initial.None? && |points| != 1 && |points| != 2
    requires ZoomToHook in env.hooks && env.dist(a, b) != 0.0
    ensures var o0 := Started(env, s, points, t0);
      var o1 := Moved(env, o0.session, [a, b], t1);
      var o2 := Moved(env, o1.session, [c, d], t2);
      && !o1.threw && o1.fired == []
      && o2.threw && o2.fired == []
  {
  }

  /**
   * `move` with neither one nor two points matches no arm of its `switch`:
   * the session is unchanged and nothing is reported.
   */
  lemma MoveOtherCountChangesNothing(env: Env, s: Session, points: seq<Point>, now: real)
    requires |points| != 1 && |points| != 2
    ensures Moved(env, s, points, now) == Outcome(s, [], false)
  {
  }

  /**
   * A one-finger pan: start at `p0`, move to `p1` and lift, all within the
   * window. The surface sees the start, the move relative to the start,
   * and a finish whose duration is the time between the two tracked
   * points.
   */
  lemma PanSequence(env: Env, s: Session, p0: Point, p1: Point, t0: real, t1: real, t2: real)
    requires t0 <= t1 <= t2 && t2 - t0 <= WINDOW
    requires MoveHook in env.hooks && FinishHook in env.hooks
    ensures var o0 := Started(env, s, [p0], t0);
      var o1 := Moved(env, o0.session, [p1], t1);
      var o2 := Finished(env, o1.session, [], t2);
      && o0.fired == [OnMove(p0, p0)]
      && o1.fired == [OnMove(p0, p1)]
      && o2.fired == [OnFinish(p0, p1, t1 - t0)]
  {
    var o0 := Started(env, s, [p0], t0);
    assert o0.session.tracked == [TrackedPoint(t0, p0)];
    var o1 := Moved(env, o0.session, [p1], t1);
    assert o1.session.tracked == [TrackedPoint(t0, p0), TrackedPoint(t1, p1)];
  }

  /**
   * A pinch: start with contacts `a` and `b`, move them to `a` and `c`,
   * then to `a` and `d`. The first move only sets the baseline separation;
   * the second zooms by pow((dist(a, d) - dist(a, c)) / 10) and reports
   * the start centre and the new centre. (With a = (0,0), b = (10,0),
   * c = (20,0), d = (30,0) the exponent is 1 and the centres are (5,0) and
   * (15,0).)
   */
  lemma PinchSequence(env: Env, s: Session, a: Point, b: Point, c: Point, d: Point, t0: real, t1: real, t2: real)
    requires ZoomToHook in env.hooks
    requires env.dist(a, c) != 0.0
    ensures var o0 := Started(env, s, [a, b], t0);
      var o1 := Moved(env, o0.session, [a, c], t1);
      var o2 := Moved(env, o1.session, [a, d], t2);
      && o1.fired == []
      && o2.fired == [OnZoomTo(Center(a, b), Center(a, d), env.pow((env.dist(a, d) - env.dist(a, c)) / PINCH_DIVISOR))]
  {
    var s0 := Started(env, s, [a, b], t0).session;
    var s1 := Moved(env, s0, [a, c], t1).session;
    assert s1.zoom == 1.0;
    assert s1.initial == Some(TrackedPoint(t0, Center(a, b)));
  }

  // ----- the object -----

  /**
   * A `Tracking` object, as the surface owns it. `log` collects the
   * callbacks delivered to the surface; `clock` is the latest time passed
   * to an operation (times passed in never decrease).
   */
  class Tracking {
    const env: Env
    var tracked: seq<TrackedPoint>
    var initial: Option<TrackedPoint>
    var latest: Option<TrackedPoint>
    var distance: real
    var zoom: real
    var log: seq<Callback>
    ghost var clock: real

    function State(): Session
      reads this
    {
      Session(tracked, initial, latest, distance, zoom)
    }

    ghost predicate Valid()
      reads this
    {
      env.Valid() && Coherent(State(), clock) && zoom > 0.0
    }

    constructor(env: Env)
      requires env.Valid()
      ensures Valid() && this.env == env
      ensures tracked == [] && initial == None && latest == None
      ensures distance == 0.0 && zoom == 1.0
      ensures log == [] && clock == 0.0
    {
      this.env := env;
      tracked := [];
      initial, latest := None, None;
      distance, zoom := 0.0, 1.0;
      log := [];
      clock := 0.0;
    }

    /** Evict from the front while the oldest entry is outside the window. */
    method Trim(now: real)
      modifies this`tracked
      ensures tracked == Trimmed(old(tracked), now)
    {
      while |tracked| > 0 && now - tracked[0].time > WINDOW
        invariant Trimmed(tracked, now) == Trimmed(old(tracked), now)
        decreases |tracked|
      {
        tracked := tracked[1..];
      }
    }

    /** Trim, then append `point` stamped with `now` and make it `latest`. */
    method Add(point: Point, now: real)
      modifies this`tracked, this`latest
      ensures State() == Added(old(State()), point, now)
    {
      Trim(now);
      latest := Some(TrackedPoint(now, point));
      tracked := tracked + [latest.value];
    }

    method Start(points: seq<Point>, now: real)
      requires Valid() && clock <= now
      modifies this
      ensures Valid() && clock == now
      ensures var o := Started(env, old(State()), points, now);
        State() == o.session && log == old(log) + o.fired
    {
      tracked := [];
      distance := 0.0;
      zoom := 1.0;
      if |points| == 1 {
        AddedCoherent(State(), points[0], clock, now);
        Add(points[0], now);
      } else if |points| == 2 {
        AddedCoherent(State(), Center(points[0], points[1]), clock, now);
        Add(Center(points[0], points[1]), now);
      } else {
        clock := now;
        return;
      }
      initial := latest;
      if MoveHook in env.hooks {
        log := log + [OnMove(initial.value.point, latest.value.point)];
      }
      clock := now;
    }

    /** `move` with one contact: track it and report `onMove` from the start. */
    method MoveOne(point: Point, now: real) returns (threw: bool)
      requires Valid() && clock <= now
      modifies this
      ensures Valid() && clock == now
      ensures var o := Moved(env, old(State()), [point], now);
        State() == o.session && log == old(log) + o.fired && threw == o.threw
    {
      AddedCoherent(State(), point, clock, now);
      clock := now;
      threw := false;
      Add(point, now);
      if MoveHook in env.hooks {
        if initial.None? {
          threw := true;
          return;
        }
        log := log + [OnMove(initial.value.point, latest.value.point)];
      }
    }

    /**
     * `move` with two contacts: track their centre and, once a previous
     * separation exists, scale `zoom` and report `onZoomTo`; then record
     * the separation.
     */
    method MoveTwo(a: Point, b: Point, now: real) returns (threw: bool)
      requires Valid() && clock <= now
      modifies this
      ensures Valid() && clock == now
      ensures var o := Moved(env, old(State()), [a, b], now);
        State() == o.session && log == old(log) + o.fired && threw == o.threw
    {
      var p := Center(a, b);
      AddedCoherent(State(), p, clock, now);
      ghost var before := State();
      assert [a, b][0] == a && [a, b][1] == b;
      clock := now;
      threw := false;
      Add(p, now);
      ghost var added := State();
      assert added == Added(before, p, now);
      var d := env.dist(a, b);
      if distance != 0.0 {
        var delta := (d - distance) / PINCH_DIVISOR;
        var factor := env.pow(delta);
        assert factor > 0.0;
        zoom := zoom * factor;
        if ZoomToHook in env.hooks {
          if initial.None? {
            threw := true;
            assert State() == added.(zoom := zoom);
            return;
          }
          log := log + [OnZoomTo(initial.value.point, p, zoom)];
        }
      }
      distance := d;
      assert State() == added.(zoom := zoom, distance := d);
    }

    method Move(points: seq<Point>, now: real) returns (threw: bool)
      requires Valid() && clock <= now
      modifies this
      ensures Valid() && clock == now
      ensures var o := Moved(env, old(State()), points, now);
        State() == o.session && log == old(log) + o.fired && threw == o.threw
    {
      if |points| == 1 {
        assert points == [points[0]];
        threw := MoveOne(points[0], now);
      } else if |points| == 2 {
        assert points == [points[0], points[1]];
        threw := MoveTwo(points[0], points[1], now);
      } else {
        clock := now;
        threw := false;
      }
    }

    /** `finish` as the last contact ends: trim, then report the gesture's span. */
    method FinishLast(now: real)
      requires Valid() && clock <= now
      modifies this
      ensures Valid() && clock == now
      ensures var o := Finished(env, old(State()), [], now);
        State() == o.session && log == old(log) + o.fired
    {
      TrimmedCoherent(State(), clock, now);
      ghost var trimmed := State().(tracked := Trimmed(tracked, now));
      Trim(now);
      assert State() == trimmed;
      if |tracked| > 1 {
        var oldest := tracked[0];
        var newest := tracked[|tracked| - 1];
        var duration := newest.time - oldest.time;
        if FinishHook in env.hooks {
          log := log + [OnFinish(oldest.point, newest.point, duration)];
        }
      }
      clock := now;
    }

    method Finish(points: seq<Point>, now: real)
      requires Valid() && clock <= now
      modifies this
      ensures Valid() && clock == now
      ensures var o := Finished(env, old(State()), points, now);
        State() == o.session && log == old(log) + o.fired
    {
      if |points| + 1 == 1 {
        assert points == [];
        FinishLast(now);
      } else if |points| + 1 == 2 {
        Start(points, now);
      } else {
        StepsKeepInvariant(env, State(), points, clock, now);
        clock := now;
      }
    }

    method ZoomBy(point: Point, direction: real)
      requires Valid()
      modifies this`log
      ensures Valid()
      ensures var o := ZoomedBy(env, old(State()), point, direction);
        State() == o.session && log == old(log) + o.fired
    {
      if ZoomByHook in env.hooks {
        log := log + [OnZoomBy(point, direction)];
      }
    }
  }
}

=== FILE: wrappers.dfy ===
/** The optional value used for fields that are undefined until first assigned. */
module Wrappers {
  datatype Option<+T> = None | Some(value: T)
}
